=== FILE: README.md ===
# Scene-control logic of the cs480 rendering exercises, in Dafny

These programs are a series of OpenGL/SDL rendering exercises. Most of their
code is GPU plumbing. The parts modelled here are the ones with exact,
checkable behaviour:

- **The PA11 game board** (`Board`, `board.dfy`). It tracks the registered
  shader sets and which one is current. It holds three light levels, each
  clamped into `[min, max]` after every change. It also holds the spotlight
  list and the size of the instanced grid. Render and uniform updates
  refuse to run while no shader is enabled.
- **The PA02 orbiting cube** (`Orbiter`, `orbiter.dfy`). It holds the
  rotation and orbit pause flags, the two speeds and the two angles. A
  frame update advances only the motions that are running. The hard-coded
  cube mesh has its 1-based face indices rebased to 0-based.
- **The PA3 controls** (`Controls`, `controls.dfy`). `handleEvent` is a
  total transition from (event, planet state) to (new planet state,
  handled?). Keys pause, resume or flip the two motions, or set the
  direction of a speed. Mouse clicks reverse a speed. The planet's state
  is the PA02 object.
- **The PA7 solar system** (`Solar`, `solar.dfy`). Planets, their names
  and their moon lists are kept in three parallel lists. Moon orbit radii
  form an arithmetic progression. `FollowPlanet` is a last-match lookup.
  After every frame update, each moon orbits its planet's new location.
- **`ErrorString`** (`GlErrors`, `glerrors.dfy`), which PA3 and PA7 define
  identically. It maps each OpenGL error code to a message.

`common.dfy` holds the shared pieces:

- `Outcomes`: the `Option`, `Result` and `Outcome` types. These stand in for
  the C++ exceptions, the null current shader and the failed search of
  `UseShaderSet`; `FollowPlanet` keeps the source's -1.
- `Geometry`: `Vec3` over reals.
- `Machine`: `unsigned int` and its wrap-around, plus float-to-`int`
  truncation.

Floats are modelled as reals. Unsigned arithmetic is wrapped explicitly
where the source relies on it:

- `size.x * size.y` in the board constructor;
- `Indices[i] - 1` in the cube constructor;
- `baseDistance + offsetPerMoon * i` in `AddPlanet`.

The board is meant to run a two-player Game of Life: PA11/include/graphics.h:50-51
declares `MoveForwardGeneration` as one generation "according to Conway's
rules", and PA11/src/board.cpp:13-15 loads textures for dead cells and for
players P1 and P2. None of that logic is in the modelled files:

- `MoveForwardGeneration` is only declared: neither PA11/src/board.cpp nor
  PA11/include/graphics.h gives it a body, and PA11's graphics.cpp is not
  part of this model.
- `Board::Update` makes two fixed `SetType` calls whose arguments do not
  match the declared signature.

So this model follows the code and has no grid, neighbour counting or cell
states. For the same reason it uses the board sizing as written in
board.cpp, which passes the scalar `size.x * size.y` to `Object`. The
`Object` constructor in PA11/include/object.h takes a 2-vector size, so
board.cpp was written against an `object.h` that is not part of this model.

Calls the model cannot see become parameters:

- **`Board`:** the `EnforceBounds` default bounds, which live in board.h,
  are the `min` and `max` parameters. A shader program handle is a number.
- **`Solar`:** `Object::Update` becomes the `advance: Body -> Body`
  parameter of `Solar.Update`, since PA7's object.cpp is not part of this
  model. Whether it leaves a body's orbit centre alone is a premise of
  one ensures, not a requirement. The `rand()`
  results behind each moon are the `draws` parameter of `AddPlanet`.

## Model

| member | source | states |
|---|---|---|
| Board.New | PA11/src/board.cpp:3-12 | a new board has no shader; its spotlight list is exactly the first `m_spotlightNum` configured spotlights, in order; its instance count is `size.x * size.y` in unsigned arithmetic; its light levels are taken unclamped |
| Board.Bound | PA11/src/board.cpp:148-151 | one clamped component lies in `[min, max]`, is unchanged when already inside, and is always one of the input, `min` or `max` |
| Board.EnforceBounds | PA11/src/board.cpp:146-162 | with `min <= max`, every component ends in `[min, max]`; a vector already inside is unchanged |
| Board.BoundIsNearest | PA11/src/board.cpp:147-162 | a clamped component is the point of `[min, max]` nearest to the input |
| Board.BoundMonotonic | PA11/src/board.cpp:148-151 | clamping keeps two components in order |
| Board.EnforceBoundsIdempotent | PA11/src/board.cpp:148-161 | clamping twice is clamping once |
| Board.EnforceBoundsComponentwise | PA11/src/board.cpp:147-162 | each component of the result depends only on the same input component |
| Board.UpdateLightBindings | PA11/src/board.cpp:127-138 | throws "no shader" exactly when none is current; otherwise uploads the current levels and shininess |
| Board.ChangeLight | PA11/src/board.cpp:97-113 | the chosen level becomes clamp(level + change); the other two levels and all other state are unchanged; the new level is stored even when the binding update then throws for want of a shader |
| Board.ChangeLightPreservesValid | PA11/src/board.cpp:97-113 | a light change keeps the board's invariant and its shader selection |
| Board.AddShaderSet | PA11/src/board.cpp:25-30 | appends one named set, keeps the earlier ones and the current selection |
| Board.FindShaderSet | PA11/src/board.cpp:33-40 | the forward scan finds the first set with the name, or reports that none has it |
| Board.UseShaderSet | PA11/src/board.cpp:32-42 | selects the first set registered under the name; when there is none, it throws "Could not find shader set: " followed by the name, and the board, its current shader included, is unchanged |
| Board.Render | PA11/src/board.cpp:89-95 | throws "No shader has been enabled!" exactly when no shader is current |
| Board.UpdateCameraBindings | PA11/src/board.cpp:116-124 | throws "no shader" exactly when no shader is current; otherwise uploads the given view, projection and eye position |
| Board.NewBoardCannotRender | PA11/src/board.cpp:89-129 | on a freshly built board, all three guarded entry points throw |
| Board.SelectedBoardRenders | PA11/src/board.cpp:32-95 | after a successful `UseShaderSet`, `Render` and the light update pass |
| Board.AddThenUse | PA11/src/board.cpp:25-42 | selecting a name right after registering it succeeds; the new set is chosen exactly when no earlier set has that name |
| Orbiter.New | PA02/src/object.cpp:3-63 | a new object is rotating and orbiting, has the given speeds and radius, and has both angles at zero |
| Orbiter.ToggleRotation | PA02/src/object.cpp:126-132 | afterwards `IsRotating` equals the argument; the orbit flag and everything else are unchanged |
| Orbiter.ToggleOrbit | PA02/src/object.cpp:134-140 | afterwards `IsOrbiting` equals the argument; the rotation flag and everything else are unchanged |
| Orbiter.SetRotationSpeed | PA02/src/object.cpp:110-116 | `GetRotationSpeed` reads back the value set; the orbit speed and everything else are unchanged |
| Orbiter.SetOrbitSpeed | PA02/src/object.cpp:118-124 | `GetOrbitSpeed` reads back the value set; the rotation speed and everything else are unchanged |
| Orbiter.Update | PA02/src/object.cpp:78-84 | a paused motion keeps its angle; a running one advances by `dt * M_PI * speed`; flags, speeds and radius are unchanged |
| Orbiter.PausedStaysFrozen | PA02/src/object.cpp:80-84 | over any number of frames, a paused angle stays frozen and the flags do not change |
| Orbiter.RebaseIndices | PA02/src/object.cpp:57-61 | every index becomes its original value minus 1 in unsigned arithmetic, so exactly minus 1 for indices of at least 1 |
| Orbiter.CubeFacesOneBasedInRange | PA02/src/object.cpp:42-55 | every 1-based face index lies between 1 and the number of vertices, 8 |
| Orbiter.CubeMesh | PA02/src/object.cpp:31-61 | the mesh has 8 vertices and 36 indices, and every rebased index is a valid vertex position |
| Controls.HandleEvent | PA3/src/graphics.cpp:139-194 | the moon is never touched; the event is handled exactly for the eight control keys and the left and right buttons; an unhandled event changes nothing; neither speed changes size; angles and radius are kept |
| Controls.StopAndContinue | PA3/src/graphics.cpp:145-153 | `s` pauses both motions and `c` resumes both, each returning true; apart from the two pause flags the planet is unchanged |
| Controls.FlipKeys | PA3/src/graphics.cpp:155-161 | `r` flips only the rotation flag and `o` only the orbit flag, every other field of the planet staying as it was; pressing either twice restores the scene |
| Controls.OrbitDirectionKeys | PA3/src/graphics.cpp:163-169 | LEFT sets the orbit speed to its absolute value and RIGHT to its negation, changing nothing else about the planet; each is idempotent |
| Controls.RotationDirectionKeys | PA3/src/graphics.cpp:171-177 | UP and DOWN do the same for the rotation speed, changing nothing else about the planet |
| Controls.Clicks | PA3/src/graphics.cpp:182-188 | a left click negates the orbit speed and a right click the rotation speed, changing nothing else about the planet; the same click twice restores the scene |
| Controls.EventsKeepMoonAndSpeeds | PA3/src/graphics.cpp:139-194 | over any event sequence, the moon is unchanged and both speeds keep their size |
| GlErrors.ErrorString | PA3/src/graphics.cpp:196-210 | total: a known code's message starts with the code's name, and exactly the codes other than the five known ones give "None" |
| GlErrors.ErrorStringDistinguishesKnownCodes | PA7/src/graphics.cpp:195-208 | the five known codes get five different messages |
| Solar.Empty | PA7/src/graphics.cpp:3-6 | a new registry is empty and follows no planet (-1) |
| Solar.AddPlanet | PA7/src/graphics.cpp:109-129 | the planet, name and moon lists each grow by exactly one, keeping their earlier entries, so they stay in step; the new moon list has `numMoons` entries; moon `i` gets radius `baseDistance + i` in unsigned arithmetic, the moon model file, and, because of the integer divisions, orbit speed 0.00025 and rotation speed 0.000005 whatever `rand()` returns; the followed planet is unchanged |
| Solar.MoonRadiiProgression | PA7/src/graphics.cpp:118-125 | without wrap-around, moon `i` orbits at `baseDistance + i`, so consecutive radii increase by exactly 1 |
| Solar.BaseDistanceAtLeastThree | PA7/src/graphics.cpp:119 | for a non-negative planet scale, the truncated base distance is at least 3 |
| Solar.NewMoon | PA7/src/graphics.cpp:121-127 | a moon built inside the loop carries the moon model file and, as written, the constant speeds 0.00025 and 0.000005 |
| Solar.MoonParamsAsWrittenIgnoreRand | PA7/src/graphics.cpp:122-126 | as written, every moon's speeds are the constants 0.00025 and 0.000005 whatever `rand()` returns, and its scale is 0.25 unless `rand()` returns `INT_MAX` |
| Solar.MoonParamsOf | PA7/src/graphics.cpp:122-126 | with float division, the speeds and scale fall in `[0.00025, 0.00035]`, `[0.000005, 0.000015]` and `[0.25, 0.5]` |
| Solar.MoonParamsFollowRand | PA7/src/graphics.cpp:122-126 | with float division, a larger draw gives a strictly larger speed or scale |
| Solar.LastIndexOf | PA7/src/graphics.cpp:143-147 | reference definition: the last index holding the name, or -1 exactly when the name is absent |
| Solar.FollowPlanet | PA7/src/graphics.cpp:142-148 | the followed index becomes the last index whose name matches, or -1 when none does, whatever was followed before; nothing else changes |
| Solar.Update | PA7/src/graphics.cpp:131-140 | every planet advances one frame; every moon of planet `i` is re-centred on planet `i`'s new location and then advances; each moon list keeps its length; when `advance` keeps orbit centres, every moon ends centred on its planet; names and the followed planet are unchanged |

## Left out

- GL, GLEW and SDL plumbing is left out: `Initialize` in both `graphics.cpp`
  files, shader compilation and linking, uniform-location lookup, and
  every `glUniform*`, `glBuffer*` and `glDraw*` call. These are calls into
  libraries with no contract visible here. An upload is represented only
  by the values it would send.
- Board.UseShaderSet: models only the lookup. After selecting, the source
  binds fifteen uniforms and throws when one is missing. Those lookups are
  GL queries, so that second failure is not modelled.
- Board.UpdateLightBindings: does not model the spotlight upload. That
  upload sends three positions starting at `m_spotlightLocs[0]`, whatever
  `m_spotlightNum` is. This is a GL buffer read, not board logic.
- `UpdateTypeBindings` and `Board::Update` are left out. The first
  reinterprets the cell-type vector as `int*`. The second calls `SetType`
  with arguments that do not match its declaration. The type grid they
  work on is declared only (PA11/include/object.h).
- The cellular automaton is left out: neither PA11/src/board.cpp nor
  PA11/include/graphics.h gives it a body, and PA11's graphics.cpp is not
  part of this model.
- Float rounding is not modelled: speeds, angles, light levels and radii
  are reals. The model matrices are left out: PA02's cos/sin/translate/
  rotate, and PA7's camera-follow `length`/`normalize` in `Render`.
- Orbiter.Update: states the angle increments over reals, without float
  rounding.
- `Object::Render`, the destructors and texture/mesh loading are left out
  as I/O. So is the ImGui menu.
- PA3's own `Object`, and its `Update` that centres the moon on the
  planet, are not part of this model. The PA3 planet is modelled with PA02's
  `Object`.
- Solar.Update: PA7's `Object::Update` is a parameter, since its motion is
  unseen. That moons end centred on their planet is promised only for an
  `advance` that keeps orbit centres. Where a
  freshly constructed body sits is set to the origin, and no property
  depends on that choice.
- Controls.ButtonPress: the `printf` that reports any other mouse button
  (PA3/src/graphics.cpp:190) is output only and is not modelled. The
  event is still reported as unhandled and the scene is unchanged.
- Solar.AddPlanet: reads the base moon distance from `GetScale().y` right
  after `SetScale` (PA7/src/graphics.cpp:113-119). PA7's object.cpp is not
  part of this model, so the getter is taken to return the scale just set.

## Findings

| source | as written | input that shows it | evidently intended | confidence | as-written member | corrected member |
|---|---|---|---|---|---|---|
| PA7/src/graphics.cpp:122-126 | `rand() / INT_MAX / 10000` and `rand() / INT_MAX / 100000` are integer divisions, and so is `rand() / INT_MAX` in the scale | any `rand()` result below `INT_MAX`, e.g. 1234: orbit speed 0.00025, rotation speed 0.000005, scale 0.25, the same for every moon | the `(float)` casts and the added offsets suggest a random fraction of `RAND_MAX`, giving speeds and a scale that vary per moon | high that the values are constant; medium on the intended ranges; not executed | Solar.MoonParamsAsWrittenIgnoreRand | Solar.MoonParamsOf |

`Solar.AddPlanet` builds its moons as written, with `Solar.MoonParamsAsWritten`, so its constant moon speeds are part of its contract. The corrected `Solar.MoonParamsOf` is the intended behaviour; `Solar.MoonParamsFollowRand` proves that its values follow the draw.

=== FILE: board.dfy ===
/** The instanced game board of PA11 (`Board` in board.cpp), reduced to the
    state that is logic rather than GPU plumbing: the registered shader sets
    and which one is current, the three light levels with their clamping,
    the spotlight list and the size of the instance grid. Compiling shaders,
    locating uniforms and every `glUniform*` upload are left to the
    rendering layer; an upload is represented by the values it would send. */
module Board {
  import opened Outcomes
  import opened Geometry
  import opened Machine

  /** The errors `Board` throws, as `std::string` exceptions. */
  datatype Error = NoShaderEnabled | ShaderSetNotFound(setName: string)

  /** The exact text of each thrown string. */
  function Message(e: Error): string
  {
    match e
    case NoShaderEnabled => "No shader has been enabled!"
    case ShaderSetNotFound(n) => "Could not find shader set: " + n
  }

  /** A registered shader set: its name and the handle of its linked program. */
  datatype ShaderSet = ShaderSet(name: string, program: nat)

  /** `glm::uvec2` board dimensions. */
  datatype Size = Size(x: uint32, y: uint32)

  /** The configuration `Board` is constructed from (`boardInfo`). */
  datatype BoardInfo = BoardInfo(
    size: Size,
    objectDistanceX: real,
    objectDistanceY: real,
    ambientLevel: Vec3,
    diffuseLevel: Vec3,
    specularLevel: Vec3,
    shininess: real,
    spotlightNum: uint32,
    spotlightLocs: seq<Vec3>)

  /** The three adjustable light levels. */
  datatype Light = Ambient | Diffuse | Specular

  /** The state of a `Board` object. */
  datatype BoardState = BoardState(
    shaders: seq<ShaderSet>,
    current: Option<nat>,       // index into `shaders` of `m_shaderCurrent`, None for nullptr
    boardSize: Size,
    spaceBetweenX: real,
    spaceBetweenY: real,
    ambient: Vec3,
    diffuse: Vec3,
    specular: Vec3,
    shininess: real,
    spotlightNum: uint32,
    spotlights: seq<Vec3>,
    instanceCount: uint32)      // number of instances the board's `Object` draws

  /** The current shader, when there is one, is one of the registered sets,
      and the spotlight list has the advertised length. */
  predicate Valid(b: BoardState)
  {
    && (b.current.Some? ==> b.current.value < |b.shaders|)
    && |b.spotlights| == b.spotlightNum
  }

  function Level(b: BoardState, light: Light): Vec3
  {
    match light
    case Ambient => b.ambient
    case Diffuse => b.diffuse
    case Specular => b.specular
  }

  function WithLevel(b: BoardState, light: Light, v: Vec3): BoardState
  {
    match light
    case Ambient => b.(ambient := v)
    case Diffuse => b.(diffuse := v)
    case Specular => b.(specular := v)
  }

  /** The board constructor. The source copies the first `m_spotlightNum`
      entries of the configured spotlight array, so the array must hold at
      least that many. Light levels are taken as configured, not clamped. */
  function New(info: BoardInfo): (b: BoardState)
    requires info.spotlightNum <= |info.spotlightLocs|
    ensures Valid(b)
    ensures b.current == None && b.shaders == []
    ensures |b.spotlights| == info.spotlightNum
    ensures forall i :: 0 <= i < |b.spotlights| ==> b.spotlights[i] == info.spotlightLocs[i]
    ensures b.instanceCount as int == (info.size.x * info.size.y) % TwoTo32
    ensures info.size.x * info.size.y < TwoTo32 ==> b.instanceCount == info.size.x * info.size.y
    ensures b.ambient == info.ambientLevel && b.diffuse == info.diffuseLevel && b.specular == info.specularLevel
  {
    BoardState(
      [], None, info.size, info.objectDistanceX, info.objectDistanceY,
      info.ambientLevel, info.diffuseLevel, info.specularLevel, info.shininess,
      info.spotlightNum, info.spotlightLocs[..info.spotlightNum],
      Wrap32(info.size.x * info.size.y))
  }

  // ---------------------------------------------------------------------------
  // Light levels

  /** One component of `EnforceBounds`: below `min` becomes `min`, otherwise
      above `max` becomes `max`, otherwise unchanged. */
  function Bound(v: real, min: real, max: real): (r: real)
    ensures min <= max ==> min <= r <= max
    ensures min <= v <= max ==> r == v
    ensures r == v || r == min || r == max
  {
    if v < min then min else if v > max then max else v
  }

  /** `EnforceBounds`: each component is bounded on its own. */
  function EnforceBounds(v: Vec3, min: real, max: real): (r: Vec3)
    ensures min <= max ==> InBounds(r, min, max)
    ensures InBounds(v, min, max) ==> r == v
  {
    Vec3(Bound(v.x, min, max), Bound(v.y, min, max), Bound(v.z, min, max))
  }

  predicate InBounds(v: Vec3, min: real, max: real)
  {
    min <= v.x <= max && min <= v.y <= max && min <= v.z <= max
  }

  /** With a proper interval, a bounded component is the point of
      `[min, max]` nearest to the input: clamping, characterised without
      reference to how it is computed. */
  lemma BoundIsNearest(v: real, min: real, max: real, w: real)
    requires min <= max
    requires min <= w <= max
    ensures Dist(Bound(v, min, max), v) <= Dist(w, v)
  {
  }

  function Dist(a: real, b: real): real
  {
    if a <= b then b - a else a - b
  }

  /** Bounding never reverses the order of two components. */
  lemma BoundMonotonic(u: real, v: real, min: real, max: real)
    requires min <= max
    requires u <= v
    ensures Bound(u, min, max) <= Bound(v, min, max)
  {
  }

  /** `EnforceBounds` is idempotent. */
  lemma EnforceBoundsIdempotent(v: Vec3, min: real, max: real)
    requires min <= max
    ensures EnforceBounds(EnforceBounds(v, min, max), min, max) == EnforceBounds(v, min, max)
  {
  }

  /** Bounding is component-wise: each component of the result depends only
      on the same component of the input. */
  lemma EnforceBoundsComponentwise(u: Vec3, v: Vec3, min: real, max: real)
    ensures u.x == v.x ==> EnforceBounds(u, min, max).x == EnforceBounds(v, min, max).x
    ensures u.y == v.y ==> EnforceBounds(u, min, max).y == EnforceBounds(v, min, max).y
    ensures u.z == v.z ==> EnforceBounds(u, min, max).z == EnforceBounds(v, min, max).z
  {
  }

  /** The values `UpdateLightBindings` uploads to the current shader. */
  datatype LightUniforms = LightUniforms(ambient: Vec3, diffuse: Vec3, specular: Vec3, shininess: real)

  /** `UpdateLightBindings`: throws when no shader is enabled, otherwise
      uploads the board's current light levels. */
  function UpdateLightBindings(b: BoardState): (r: Result<LightUniforms, Error>)
    ensures r.Err? <==> b.current.None?
    ensures r.Err? ==> r.error == NoShaderEnabled
    ensures r.Ok? ==> (
      && r.value.ambient == Level(b, Ambient) && r.value.diffuse == Level(b, Diffuse)
      && r.value.specular == Level(b, Specular) && r.value.shininess == b.shininess)
  {
    if b.current.None? then Err(NoShaderEnabled)
    else Ok(LightUniforms(b.ambient, b.diffuse, b.specular, b.shininess))
  }

  /** The board after a call together with what the call reported. */
  datatype LightChange = LightChange(board: BoardState, upload: Result<LightUniforms, Error>)

  /** `ChangeAmbientLight`, `ChangeDiffuseLight` and `ChangeSpecularLight`:
      add `change` to the chosen level, bound it, then update the light
      bindings. The level is stored before the bindings are updated, so it
      is changed even when that update throws for want of a shader. */
  function ChangeLight(b: BoardState, light: Light, change: Vec3, min: real, max: real): (r: LightChange)
    ensures Level(r.board, light) == EnforceBounds(Add(Level(b, light), change), min, max)
    ensures min <= max ==> InBounds(Level(r.board, light), min, max)
    ensures forall other :: other != light ==> Level(r.board, other) == Level(b, other)
    ensures WithLevel(r.board, light, Level(b, light)) == b
    ensures r.upload.Err? <==> b.current.None?
    ensures r.upload.Ok? ==> (
      && r.upload.value.shininess == b.shininess
      && r.upload.value.ambient == Level(r.board, Ambient)
      && r.upload.value.diffuse == Level(r.board, Diffuse)
      && r.upload.value.specular == Level(r.board, Specular))
  {
    var b' := WithLevel(b, light, EnforceBounds(Add(Level(b, light), change), min, max));
    LightChange(b', UpdateLightBindings(b'))
  }

  /** Changing a level never touches the shader selection, the spotlights or
      the instance grid, so a valid board stays valid. */
  lemma ChangeLightPreservesValid(b: BoardState, light: Light, change: Vec3, min: real, max: real)
    requires Valid(b)
    ensures Valid(ChangeLight(b, light, change, min, max).board)
    ensures ChangeLight(b, light, change, min, max).board.current == b.current
  {
  }

  // ---------------------------------------------------------------------------
  // Shader sets

  /** `AddShaderSet`: appends a set under `setName`; compiling and linking
      its program is the rendering layer's business. */
  function AddShaderSet(b: BoardState, setName: string, program: nat): (r: BoardState)
    ensures |r.shaders| == |b.shaders| + 1
    ensures r.shaders[..|b.shaders|] == b.shaders
    ensures r.shaders[|b.shaders|].name == setName
    ensures r.(shaders := b.shaders) == b
    ensures Valid(b) ==> Valid(r)
  {
    b.(shaders := b.shaders + [ShaderSet(setName, program)])
  }

  /** The index of the first set at or after `from` named `setName`, found by
      the forward scan of `UseShaderSet`. */
  function FindShaderSet(shaders: seq<ShaderSet>, setName: string, from: nat): (r: Option<nat>)
    requires from <= |shaders|
    decreases |shaders| - from
    ensures r.Some? ==> from <= r.value < |shaders| && shaders[r.value].name == setName
    ensures r.Some? ==> forall j :: from <= j < r.value ==> shaders[j].name != setName
    ensures r.None? <==> forall j :: from <= j < |shaders| ==> shaders[j].name != setName
  {
    if from == |shaders| then None
    else if shaders[from].name == setName then Some(from)
    else FindShaderSet(shaders, setName, from + 1)
  }

  /** The board after `UseShaderSet` and whether it threw. */
  datatype Selection = Selection(board: BoardState, outcome: Outcome<Error>)

  /** The lookup part of `UseShaderSet`: the first set registered under
      `setName` becomes current; when there is none, the call throws and
      the current shader stays as it was. */
  function UseShaderSet(b: BoardState, setName: string): (r: Selection)
    ensures r.board.(current := b.current) == b
    ensures r.outcome.Fail? <==> forall j :: 0 <= j < |b.shaders| ==> b.shaders[j].name != setName
    ensures r.outcome.Fail? ==> r.outcome.error == ShaderSetNotFound(setName) && r.board == b
    ensures r.outcome.Fail? ==> Message(r.outcome.error) == "Could not find shader set: " + setName
    ensures r.outcome.Pass? ==> r.board.current.Some?
    ensures r.outcome.Pass? ==> var i := r.board.current.value;
              i < |b.shaders| && b.shaders[i].name == setName
              && forall j :: 0 <= j < i ==> b.shaders[j].name != setName
    ensures Valid(b) ==> Valid(r.board)
  {
    match FindShaderSet(b.shaders, setName, 0)
    case None => Selection(b, Fail(ShaderSetNotFound(setName)))
    case Some(i) => Selection(b.(current := Some(i)), Pass)
  }

  /** `Render`: refuses to draw when no shader is enabled. */
  function Render(b: BoardState): (r: Outcome<Error>)
    ensures r.Fail? <==> b.current.None?
    ensures r.Fail? ==> r.error == NoShaderEnabled && Message(r.error) == "No shader has been enabled!"
  {
    if b.current.None? then Fail(NoShaderEnabled) else Pass
  }

  /** The values `UpdateCameraBindings` uploads; the matrices are opaque. */
  datatype CameraUniforms<M> = CameraUniforms(view: M, projection: M, eyePos: Vec3)

  /** `UpdateCameraBindings`: refuses when no shader is enabled, otherwise
      uploads the view and projection matrices and the eye position. */
  function UpdateCameraBindings<M>(b: BoardState, view: M, projection: M, cameraPos: Vec3): (r: Result<CameraUniforms<M>, Error>)
    ensures r.Err? <==> b.current.None?
    ensures r.Err? ==> r.error == NoShaderEnabled
    ensures r.Ok? ==> r.value == CameraUniforms(view, projection, cameraPos)
  {
    if b.current.None? then Err(NoShaderEnabled) else Ok(CameraUniforms(view, projection, cameraPos))
  }

  /** A freshly constructed board has no shader, so every guarded entry
      point throws until a shader set has been selected. */
  lemma NewBoardCannotRender<M>(info: BoardInfo, view: M, projection: M, eye: Vec3)
    requires info.spotlightNum <= |info.spotlightLocs|
    ensures Render(New(info)) == Fail(NoShaderEnabled)
    ensures UpdateLightBindings(New(info)) == Err(NoShaderEnabled)
    ensures UpdateCameraBindings(New(info), view, projection, eye) == Err(NoShaderEnabled)
  {
  }

  /** Once a shader set has been selected, the guarded entry points all pass. */
  lemma SelectedBoardRenders(b: BoardState, setName: string)
    requires UseShaderSet(b, setName).outcome.Pass?
    ensures Render(UseShaderSet(b, setName).board).Pass?
    ensures UpdateLightBindings(UseShaderSet(b, setName).board).Ok?
  {
  }

  /** Registering a set and then selecting it by name succeeds, and selects
      the newly added set exactly when no earlier set had that name. */
  lemma AddThenUse(b: BoardState, setName: string, program: nat)
    ensures UseShaderSet(AddShaderSet(b, setName, program), setName).outcome.Pass?
    ensures var c := UseShaderSet(AddShaderSet(b, setName, program), setName).board.current;
            c == Some(|b.shaders|) <==> forall j :: 0 <= j < |b.shaders| ==> b.shaders[j].name != setName
  {
  }
}

=== FILE: common.dfy ===
/** Failure-carrying datatypes used in place of the C++ exceptions and
    sentinel values of the programs being modelled. */
module Outcomes {

  datatype Option<+T> = None | Some(value: T)

  /** A computation that either produced a value or failed with an error. */
  datatype Result<+T, +E> = Ok(value: T) | Err(error: E)

  /** A computation with no value that either passed or failed. */
  datatype Outcome<+E> = Pass | Fail(error: E)
}

/** `glm::vec3` with its float components idealised as reals. */
module Geometry {

  datatype Vec3 = Vec3(x: real, y: real, z: real)

  const Origin: Vec3 := Vec3(0.0, 0.0, 0.0)

  /** Component-wise addition, as `glm::vec3::operator+=` performs it. */
  function Add(a: Vec3, b: Vec3): Vec3
  {
    Vec3(a.x + b.x, a.y + b.y, a.z + b.z)
  }
}

/** The machine integers of the C++ sources, written out explicitly. */
module Machine {

  const TwoTo32: int := 0x1_0000_0000

  /** `unsigned int` */
  type uint32 = x: int | 0 <= x < TwoTo32

  /** `INT_MAX`, which is also `RAND_MAX` on the C libraries these programs target. */
  const IntMax: int := 0x7FFF_FFFF

  /** The value an `unsigned int` holds after arithmetic that produced `x`. */
  function Wrap32(x: int): (r: uint32)
    ensures (r - x) % TwoTo32 == 0
    ensures 0 <= x < TwoTo32 ==> r == x
  {
    x % TwoTo32
  }

  /** Conversion of a float to `int`: C++ truncates toward zero. */
  function TruncToInt(x: real): (r: int)
    ensures 0.0 <= x ==> r as real <= x < r as real + 1.0
    ensures x < 0.0 ==> r as real - 1.0 < x <= r as real
  {
    if 0.0 <= x then x.Floor else -((-x).Floor)
  }
}

=== FILE: controls.dfy ===
/** The keyboard and mouse controls of PA3 (`Graphics::handleEvent`): a
    total transition on the planet's motion state that also reports whether
    the event was handled. The planet and its moon are PA02 objects. */
module Controls {
  import opened Orbiter

  // SDL key symbols (`SDL_Keycode`)
  const SDLK_c: int := 0x63
  const SDLK_o: int := 0x6F
  const SDLK_r: int := 0x72
  const SDLK_s: int := 0x73
  const SDLK_RIGHT: int := 0x4000_004F
  const SDLK_LEFT: int := 0x4000_0050
  const SDLK_DOWN: int := 0x4000_0051
  const SDLK_UP: int := 0x4000_0052

  // SDL mouse buttons
  const SDL_BUTTON_LEFT: int := 1
  const SDL_BUTTON_RIGHT: int := 3

  /** The part of an `SDL_Event` that `handleEvent` reads: its type and,
      for a key press, the key symbol, for a button press, the button. */
  datatype Event = KeyDown(sym: int) | MouseButtonDown(button: int) | OtherEvent

  datatype Scene = Scene(planet: Object, moon: Object)

  /** The scene after an event, and `handleEvent`'s return value. */
  datatype Handling = Handling(scene: Scene, handled: bool)

  function Abs(x: real): (r: real)
    ensures 0.0 <= r && (r == x || r == -x)
  {
    if x < 0.0 then -x else x
  }

  predicate IsControlKey(sym: int)
  {
    sym in {SDLK_s, SDLK_c, SDLK_r, SDLK_o, SDLK_LEFT, SDLK_RIGHT, SDLK_UP, SDLK_DOWN}
  }

  predicate IsControlButton(button: int)
  {
    button == SDL_BUTTON_LEFT || button == SDL_BUTTON_RIGHT
  }

  /** The transition for a key press on the planet. */
  function KeyPress(p: Object, sym: int): Object
  {
    if sym == SDLK_s then ToggleOrbit(ToggleRotation(p, false), false)
    else if sym == SDLK_c then ToggleOrbit(ToggleRotation(p, true), true)
    else if sym == SDLK_r then ToggleRotation(p, !IsRotating(p))
    else if sym == SDLK_o then ToggleOrbit(p, !IsOrbiting(p))
    else if sym == SDLK_LEFT then SetOrbitSpeed(p, Abs(GetOrbitSpeed(p)))
    else if sym == SDLK_RIGHT then SetOrbitSpeed(p, -1.0 * Abs(GetOrbitSpeed(p)))
    else if sym == SDLK_UP then SetRotationSpeed(p, Abs(GetRotationSpeed(p)))
    else if sym == SDLK_DOWN then SetRotationSpeed(p, -1.0 * Abs(GetRotationSpeed(p)))
    else p
  }

  /** The transition for a mouse button press on the planet. */
  function ButtonPress(p: Object, button: int): Object
  {
    if button == SDL_BUTTON_LEFT then SetOrbitSpeed(p, -1.0 * GetOrbitSpeed(p))
    else if button == SDL_BUTTON_RIGHT then SetRotationSpeed(p, -1.0 * GetRotationSpeed(p))
    else p
  }

  /** `handleEvent`. Only the planet changes, only its flags and speeds, and
      never the size of a speed; an event it does not handle changes
      nothing. */
  function HandleEvent(s: Scene, e: Event): (r: Handling)
    ensures r.scene.moon == s.moon
    ensures r.handled <==> (e.KeyDown? && IsControlKey(e.sym)) || (e.MouseButtonDown? && IsControlButton(e.button))
    ensures !r.handled ==> r.scene == s
    ensures Abs(GetOrbitSpeed(r.scene.planet)) == Abs(GetOrbitSpeed(s.planet))
    ensures Abs(GetRotationSpeed(r.scene.planet)) == Abs(GetRotationSpeed(s.planet))
    ensures r.scene.planet.angleRotation == s.planet.angleRotation && r.scene.planet.angleOrbit == s.planet.angleOrbit
    ensures r.scene.planet.orbitRadius == s.planet.orbitRadius
  {
    match e
    case KeyDown(sym) => Handling(s.(planet := KeyPress(s.planet, sym)), IsControlKey(sym))
    case MouseButtonDown(button) => Handling(s.(planet := ButtonPress(s.planet, button)), IsControlButton(button))
    case OtherEvent => Handling(s, false)
  }

  function Planet(s: Scene, e: Event): Object
  {
    HandleEvent(s, e).scene.planet
  }

  /** `s` stops both motions and `c` resumes both; speeds are kept. */
  lemma StopAndContinue(s: Scene)
    ensures HandleEvent(s, KeyDown(SDLK_s)).handled && HandleEvent(s, KeyDown(SDLK_c)).handled
    ensures !IsRotating(Planet(s, KeyDown(SDLK_s))) && !IsOrbiting(Planet(s, KeyDown(SDLK_s)))
    ensures IsRotating(Planet(s, KeyDown(SDLK_c))) && IsOrbiting(Planet(s, KeyDown(SDLK_c)))
    ensures GetOrbitSpeed(Planet(s, KeyDown(SDLK_s))) == GetOrbitSpeed(s.planet)
    ensures GetRotationSpeed(Planet(s, KeyDown(SDLK_c))) == GetRotationSpeed(s.planet)
    ensures Planet(s, KeyDown(SDLK_s)).(pauseRotation := s.planet.pauseRotation, pauseOrbit := s.planet.pauseOrbit) == s.planet
    ensures Planet(s, KeyDown(SDLK_c)).(pauseRotation := s.planet.pauseRotation, pauseOrbit := s.planet.pauseOrbit) == s.planet
  {
  }

  /** `r` flips only the rotation flag and `o` only the orbit flag, so
      pressing either twice restores the scene. */
  lemma FlipKeys(s: Scene)
    ensures IsRotating(Planet(s, KeyDown(SDLK_r))) == !IsRotating(s.planet)
    ensures IsOrbiting(Planet(s, KeyDown(SDLK_r))) == IsOrbiting(s.planet)
    ensures IsOrbiting(Planet(s, KeyDown(SDLK_o))) == !IsOrbiting(s.planet)
    ensures IsRotating(Planet(s, KeyDown(SDLK_o))) == IsRotating(s.planet)
    ensures Planet(s, KeyDown(SDLK_r)).(pauseRotation := s.planet.pauseRotation) == s.planet
    ensures Planet(s, KeyDown(SDLK_o)).(pauseOrbit := s.planet.pauseOrbit) == s.planet
    ensures HandleEvent(HandleEvent(s, KeyDown(SDLK_r)).scene, KeyDown(SDLK_r)).scene == s
    ensures HandleEvent(HandleEvent(s, KeyDown(SDLK_o)).scene, KeyDown(SDLK_o)).scene == s
  {
  }

  /** LEFT makes the orbit speed non-negative and RIGHT non-positive, keeping
      its size; nothing else about the planet changes, and each is
      idempotent. */
  lemma OrbitDirectionKeys(s: Scene)
    ensures GetOrbitSpeed(Planet(s, KeyDown(SDLK_LEFT))) == Abs(GetOrbitSpeed(s.planet))
    ensures GetOrbitSpeed(Planet(s, KeyDown(SDLK_RIGHT))) == -Abs(GetOrbitSpeed(s.planet))
    ensures GetRotationSpeed(Planet(s, KeyDown(SDLK_LEFT))) == GetRotationSpeed(s.planet)
    ensures GetRotationSpeed(Planet(s, KeyDown(SDLK_RIGHT))) == GetRotationSpeed(s.planet)
    ensures Planet(s, KeyDown(SDLK_LEFT)).(speedOrbit := s.planet.speedOrbit) == s.planet
    ensures Planet(s, KeyDown(SDLK_RIGHT)).(speedOrbit := s.planet.speedOrbit) == s.planet
    ensures var once := HandleEvent(s, KeyDown(SDLK_LEFT)).scene;
            HandleEvent(once, KeyDown(SDLK_LEFT)).scene == once
    ensures var once := HandleEvent(s, KeyDown(SDLK_RIGHT)).scene;
            HandleEvent(once, KeyDown(SDLK_RIGHT)).scene == once
  {
  }

  /** UP and DOWN do the same for the rotation speed, changing nothing else. */
  lemma RotationDirectionKeys(s: Scene)
    ensures GetRotationSpeed(Planet(s, KeyDown(SDLK_UP))) == Abs(GetRotationSpeed(s.planet))
    ensures GetRotationSpeed(Planet(s, KeyDown(SDLK_DOWN))) == -Abs(GetRotationSpeed(s.planet))
    ensures GetOrbitSpeed(Planet(s, KeyDown(SDLK_UP))) == GetOrbitSpeed(s.planet)
    ensures GetOrbitSpeed(Planet(s, KeyDown(SDLK_DOWN))) == GetOrbitSpeed(s.planet)
    ensures Planet(s, KeyDown(SDLK_UP)).(speedRotation := s.planet.speedRotation) == s.planet
    ensures Planet(s, KeyDown(SDLK_DOWN)).(speedRotation := s.planet.speedRotation) == s.planet
    ensures var once := HandleEvent(s, KeyDown(SDLK_UP)).scene;
            HandleEvent(once, KeyDown(SDLK_UP)).scene == once
    ensures var once := HandleEvent(s, KeyDown(SDLK_DOWN)).scene;
            HandleEvent(once, KeyDown(SDLK_DOWN)).scene == once
  {
  }

  /** A left click reverses the orbit and a right click the rotation, and
      nothing else changes; the same click twice restores the scene. */
  lemma Clicks(s: Scene)
    ensures GetOrbitSpeed(Planet(s, MouseButtonDown(SDL_BUTTON_LEFT))) == -GetOrbitSpeed(s.planet)
    ensures GetRotationSpeed(Planet(s, MouseButtonDown(SDL_BUTTON_LEFT))) == GetRotationSpeed(s.planet)
    ensures GetRotationSpeed(Planet(s, MouseButtonDown(SDL_BUTTON_RIGHT))) == -GetRotationSpeed(s.planet)
    ensures GetOrbitSpeed(Planet(s, MouseButtonDown(SDL_BUTTON_RIGHT))) == GetOrbitSpeed(s.planet)
    ensures Planet(s, MouseButtonDown(SDL_BUTTON_LEFT)).(speedOrbit := s.planet.speedOrbit) == s.planet
    ensures Planet(s, MouseButtonDown(SDL_BUTTON_RIGHT)).(speedRotation := s.planet.speedRotation) == s.planet
    ensures HandleEvent(HandleEvent(s, MouseButtonDown(SDL_BUTTON_LEFT)).scene, MouseButtonDown(SDL_BUTTON_LEFT)).scene == s
    ensures HandleEvent(HandleEvent(s, MouseButtonDown(SDL_BUTTON_RIGHT)).scene, MouseButtonDown(SDL_BUTTON_RIGHT)).scene == s
  {
  }

  /** Any sequence of events leaves the moon as it was and both speeds at
      their original size. */
  lemma {:induction false} EventsKeepMoonAndSpeeds(s: Scene, es: seq<Event>)
    ensures HandleAll(s, es).moon == s.moon
    ensures Abs(GetOrbitSpeed(HandleAll(s, es).planet)) == Abs(GetOrbitSpeed(s.planet))
    ensures Abs(GetRotationSpeed(HandleAll(s, es).planet)) == Abs(GetRotationSpeed(s.planet))
    decreases |es|
  {
    if es != [] {
      EventsKeepMoonAndSpeeds(HandleEvent(s, es[0]).scene, es[1..]);
    }
  }

  /** The event loop: each event in turn. */
  function HandleAll(s: Scene, es: seq<Event>): Scene
    decreases |es|
  {
    if es == [] then s else HandleAll(HandleEvent(s, es[0]).scene, es[1..])
  }
}

=== FILE: glerrors.dfy ===
/** `Graphics::ErrorString`, which PA3 and PA7 define identically: the
    human-readable text for an OpenGL error code. */
module GlErrors {
  import opened Machine

  // OpenGL error codes (`GLenum`)
  const GL_NO_ERROR: uint32 := 0
  const GL_INVALID_ENUM: uint32 := 0x0500
  const GL_INVALID_VALUE: uint32 := 0x0501
  const GL_INVALID_OPERATION: uint32 := 0x0502
  const GL_STACK_OVERFLOW: uint32 := 0x0503
  const GL_STACK_UNDERFLOW: uint32 := 0x0504
  const GL_OUT_OF_MEMORY: uint32 := 0x0505
  const GL_INVALID_FRAMEBUFFER_OPERATION: uint32 := 0x0506

  /** The five codes `ErrorString` has a message for. */
  predicate IsKnown(code: uint32)
  {
    code in {GL_INVALID_ENUM, GL_INVALID_VALUE, GL_INVALID_OPERATION,
             GL_INVALID_FRAMEBUFFER_OPERATION, GL_OUT_OF_MEMORY}
  }

  /** The symbolic name of a known code. */
  function CodeName(code: uint32): string
    requires IsKnown(code)
  {
    if code == GL_INVALID_ENUM then "GL_INVALID_ENUM"
    else if code == GL_INVALID_VALUE then "GL_INVALID_VALUE"
    else if code == GL_INVALID_OPERATION then "GL_INVALID_OPERATION"
    else if code == GL_INVALID_FRAMEBUFFER_OPERATION then "GL_INVALID_FRAMEBUFFER_OPERATION"
    else "GL_OUT_OF_MEMORY"
  }

  /** The explanation a known code's message gives after its name. */
  function Description(code: uint32): string
    requires IsKnown(code)
  {
    if code == GL_INVALID_ENUM then "An unacceptable value is specified for an enumerated argument."
    else if code == GL_INVALID_VALUE then "A numeric argument is out of range."
    else if code == GL_INVALID_OPERATION then "The specified operation is not allowed in the current state."
    else if code == GL_INVALID_FRAMEBUFFER_OPERATION then "The framebuffer object is not complete."
    else "There is not enough memory left to execute the command."
  }

  /** `ErrorString`: total over every code. A known code's message starts
      with the code's name and a colon; every other code, including
      `GL_NO_ERROR` and the two stack errors, reads "None". */
  function ErrorString(code: uint32): (r: string)
    ensures r == "None" <==> !IsKnown(code)
    ensures IsKnown(code) ==> CodeName(code) + ": " < r
  {
    if IsKnown(code) then CodeName(code) + ": " + Description(code) else "None"
  }

  /** Distinct known codes get distinct messages, so the text identifies the
      error. */
  lemma ErrorStringDistinguishesKnownCodes(a: uint32, b: uint32)
    requires IsKnown(a) && IsKnown(b) && a != b
    ensures ErrorString(a) != ErrorString(b)
  {
    MessageKey(a);
    MessageKey(b);
  }

  /** The thirteenth character of a message already tells the five known
      codes apart. */
  lemma MessageKey(code: uint32)
    requires IsKnown(code)
    ensures ErrorString(code)[12] == Key(code)
  {
    assert ErrorString(code)[12] == CodeName(code)[12];
  }

  function Key(code: uint32): char
  {
    if code == GL_INVALID_ENUM then 'N'
    else if code == GL_INVALID_VALUE then 'A'
    else if code == GL_INVALID_OPERATION then 'P'
    else if code == GL_INVALID_FRAMEBUFFER_OPERATION then 'R'
    else 'M'
  }
}

=== FILE: orbiter.dfy ===
/** The spinning, orbiting cube of PA02 (`Object` in object.cpp): its motion
    control state (pause flags, speeds, angles) and its hard-coded mesh.
    The model matrix built from the angles and the buffer uploads belong to
    the rendering layer. PA3 reuses this state for its planet. */
module Orbiter {
  import opened Machine

  /** `M_PI`. */
  const Pi: real := 3.14159265358979323846

  datatype Object = Object(
    orbitRadius: real,
    speedRotation: real,
    speedOrbit: real,
    pauseRotation: bool,
    pauseOrbit: bool,
    angleRotation: real,
    angleOrbit: real)

  /** The constructor: both motions running, both angles at zero. */
  function New(orbitalRadius: real, rotationSpeed: real, orbitSpeed: real): (o: Object)
    ensures IsRotating(o) && IsOrbiting(o)
    ensures GetRotationSpeed(o) == rotationSpeed && GetOrbitSpeed(o) == orbitSpeed
    ensures o.orbitRadius == orbitalRadius
    ensures o.angleRotation == 0.0 && o.angleOrbit == 0.0
  {
    Object(orbitalRadius, rotationSpeed, orbitSpeed, false, false, 0.0, 0.0)
  }

  predicate IsRotating(o: Object)
  {
    !o.pauseRotation
  }

  predicate IsOrbiting(o: Object)
  {
    !o.pauseOrbit
  }

  function GetRotationSpeed(o: Object): real
  {
    o.speedRotation
  }

  function GetOrbitSpeed(o: Object): real
  {
    o.speedOrbit
  }

  /** `ToggleRotation(rotate)`: afterwards the object rotates exactly when
      `rotate` holds; nothing else changes. */
  function ToggleRotation(o: Object, rotate: bool): (o': Object)
    ensures IsRotating(o') == rotate
    ensures IsOrbiting(o') == IsOrbiting(o)
    ensures o'.(pauseRotation := o.pauseRotation) == o
  {
    o.(pauseRotation := !rotate)
  }

  /** `ToggleOrbit(orbit)`: afterwards the object orbits exactly when
      `orbit` holds; nothing else changes. */
  function ToggleOrbit(o: Object, orbit: bool): (o': Object)
    ensures IsOrbiting(o') == orbit
    ensures IsRotating(o') == IsRotating(o)
    ensures o'.(pauseOrbit := o.pauseOrbit) == o
  {
    o.(pauseOrbit := !orbit)
  }

  /** `SetRotationSpeed`: read back by `GetRotationSpeed`; the orbit speed
      and everything else are untouched. */
  function SetRotationSpeed(o: Object, rotationSpeed: real): (o': Object)
    ensures GetRotationSpeed(o') == rotationSpeed
    ensures GetOrbitSpeed(o') == GetOrbitSpeed(o)
    ensures o'.(speedRotation := o.speedRotation) == o
  {
    o.(speedRotation := rotationSpeed)
  }

  /** `SetOrbitSpeed`: read back by `GetOrbitSpeed`; the rotation speed and
      everything else are untouched. */
  function SetOrbitSpeed(o: Object, orbitSpeed: real): (o': Object)
    ensures GetOrbitSpeed(o') == orbitSpeed
    ensures GetRotationSpeed(o') == GetRotationSpeed(o)
    ensures o'.(speedOrbit := o.speedOrbit) == o
  {
    o.(speedOrbit := orbitSpeed)
  }

  /** `Update(dt)`: each running motion advances its angle by
      `dt * M_PI * speed`; a paused motion keeps its angle. Flags, speeds and
      radius never change. */
  function Update(o: Object, dt: uint32): (o': Object)
    ensures !IsRotating(o) ==> o'.angleRotation == o.angleRotation
    ensures !IsOrbiting(o) ==> o'.angleOrbit == o.angleOrbit
    ensures IsRotating(o) ==> o'.angleRotation - o.angleRotation == dt as real * Pi * o.speedRotation
    ensures IsOrbiting(o) ==> o'.angleOrbit - o.angleOrbit == dt as real * Pi * o.speedOrbit
    ensures o'.(angleRotation := o.angleRotation, angleOrbit := o.angleOrbit) == o
  {
    var rot := if o.pauseRotation then o.angleRotation else o.angleRotation + dt as real * Pi * o.speedRotation;
    var orb := if o.pauseOrbit then o.angleOrbit else o.angleOrbit + dt as real * Pi * o.speedOrbit;
    o.(angleRotation := rot, angleOrbit := orb)
  }

  /** A paused motion stays frozen over any number of updates. */
  lemma {:induction false} PausedStaysFrozen(o: Object, dts: seq<uint32>)
    ensures !IsRotating(o) ==> UpdateAll(o, dts).angleRotation == o.angleRotation
    ensures !IsOrbiting(o) ==> UpdateAll(o, dts).angleOrbit == o.angleOrbit
    ensures IsRotating(UpdateAll(o, dts)) == IsRotating(o)
    ensures IsOrbiting(UpdateAll(o, dts)) == IsOrbiting(o)
    decreases |dts|
  {
    if dts != [] {
      PausedStaysFrozen(Update(o, dts[0]), dts[1..]);
    }
  }

  /** A sequence of frames, one `Update` per frame. */
  function UpdateAll(o: Object, dts: seq<uint32>): Object
    decreases |dts|
  {
    if dts == [] then o else UpdateAll(Update(o, dts[0]), dts[1..])
  }

  // ---------------------------------------------------------------------------
  // The cube mesh

  datatype Vertex = Vertex(x: real, y: real, z: real, r: real, g: real, b: real)

  /** The eight corners of the cube, each with its colour. */
  const CubeVertices: seq<Vertex> := [
    Vertex( 1.0, -1.0, -1.0, 0.0, 0.0, 0.0),
    Vertex( 1.0, -1.0,  1.0, 1.0, 0.0, 0.0),
    Vertex(-1.0, -1.0,  1.0, 0.0, 1.0, 0.0),
    Vertex(-1.0, -1.0, -1.0, 0.0, 0.0, 1.0),
    Vertex( 1.0,  1.0, -1.0, 1.0, 1.0, 0.0),
    Vertex( 1.0,  1.0,  1.0, 1.0, 0.0, 1.0),
    Vertex(-1.0,  1.0,  1.0, 0.0, 1.0, 1.0),
    Vertex(-1.0,  1.0, -1.0, 1.0, 1.0, 1.0)
  ]

  /** The twelve triangles of the cube as the Wavefront file numbers their
      corners: counting from 1. */
  const CubeFacesOneBased: seq<uint32> := [
    2, 3, 4,
    8, 7, 6,
    1, 5, 6,
    2, 6, 7,
    7, 8, 4,
    1, 4, 8,
    1, 2, 4,
    5, 8, 6,
    2, 1, 6,
    3, 2, 7,
    3, 7, 4,
    5, 1, 8
  ]

  /** The constructor's rebasing loop: every index is decremented in
      `unsigned int` arithmetic, so a 0 would wrap to the largest value. */
  method RebaseIndices(indices: seq<uint32>) returns (r: seq<uint32>)
    ensures |r| == |indices|
    ensures forall i :: 0 <= i < |r| ==> r[i] == Wrap32(indices[i] as int - 1)
    ensures forall i :: 0 <= i < |r| ==> 1 <= indices[i] ==> r[i] == indices[i] - 1
  {
    r := indices;
    var i := 0;
    while i < |r|
      invariant 0 <= i <= |r| == |indices|
      invariant forall k :: 0 <= k < i ==> r[k] == Wrap32(indices[k] as int - 1)
      invariant forall k :: i <= k < |r| ==> r[k] == indices[k]
    {
      r := r[i := Wrap32(r[i] as int - 1)];
      i := i + 1;
    }
  }

  /** Every corner number in the face list is between 1 and 8. */
  lemma CubeFacesOneBasedInRange()
    ensures forall i :: 0 <= i < |CubeFacesOneBased| ==> 1 <= CubeFacesOneBased[i] <= |CubeVertices|
  {
  }

  /** The mesh the constructor uploads: after rebasing, all 36 indices are
      valid positions in the 8-entry vertex list. */
  method CubeMesh() returns (vertices: seq<Vertex>, indices: seq<uint32>)
    ensures |vertices| == 8 && |indices| == 36
    ensures forall i :: 0 <= i < |indices| ==> indices[i] < |vertices|
    ensures forall i :: 0 <= i < |indices| ==> indices[i] == CubeFacesOneBased[i] - 1
  {
    CubeFacesOneBasedInRange();
    vertices := CubeVertices;
    indices := RebaseIndices(CubeFacesOneBased);
  }
}

=== FILE: solar.dfy ===
/** The solar system of PA7 (`Graphics` in graphics.cpp) reduced to its
    bookkeeping: the planets, their names and their moons kept in three
    parallel lists, the planet the camera follows, and the per-frame update
    that keeps every moon circling its planet. The bodies themselves are
    PA7 `Object`s, whose source (object.cpp) is not part of this model:
    their per-frame motion is a parameter of `Update`. */
module Solar {
  import opened Geometry
  import opened Machine

  /** The configuration of one planet (`Planet`). */
  datatype PlanetInfo = PlanetInfo(
    name: string,
    objFile: string,
    radiusX: real,
    radiusY: real,
    orbitSpeed: real,
    rotationSpeed: real,
    modelScale: Vec3,
    numMoons: uint32)

  /** An orbiting body: what it was constructed from, its scale, the centre
      it orbits and where it currently is. */
  datatype Body = Body(
    objFile: string,
    radiusX: real,
    radiusY: real,
    orbitSpeed: real,
    rotationSpeed: real,
    scale: Vec3,
    orbitCenter: Vec3,
    location: Vec3)

  /** `new Object(objFile, radiusX, radiusY, orbitSpeed, rotationSpeed)`
      followed by `SetScale(scale)`. Where a fresh object sits is decided by
      object.cpp; this model starts it at the origin and states nothing that
      depends on it. */
  function NewBody(objFile: string, radiusX: real, radiusY: real, orbitSpeed: real, rotationSpeed: real, scale: Vec3): Body
  {
    Body(objFile, radiusX, radiusY, orbitSpeed, rotationSpeed, scale, Origin, Origin)
  }

  datatype Registry = Registry(
    planets: seq<Body>,
    names: seq<string>,
    moons: seq<seq<Body>>,
    following: int)      // index of the followed planet, -1 for none

  /** The three lists run in step, and the followed planet, if any, exists. */
  predicate Valid(g: Registry)
  {
    && |g.planets| == |g.names| == |g.moons|
    && -1 <= g.following < |g.planets|
  }

  /** The constructor: no planets, following none. */
  function Empty(): (g: Registry)
    ensures Valid(g) && g.following == -1 && |g.planets| == 0
  {
    Registry([], [], [], -1)
  }

  // ---------------------------------------------------------------------------
  // Moon parameters drawn from rand()

  /** The three `rand()` results drawn for one moon. */
  datatype MoonDraw = MoonDraw(orbit: int, rotation: int, scale: int)

  /** `rand()` returns a value in `[0, RAND_MAX]`, and `RAND_MAX == INT_MAX`. */
  predicate IsRandDraw(d: MoonDraw)
  {
    0 <= d.orbit <= IntMax && 0 <= d.rotation <= IntMax && 0 <= d.scale <= IntMax
  }

  datatype MoonParams = MoonParams(orbitSpeed: real, rotationSpeed: real, scale: real)

  /** The moon parameters as the source computes them: `rand() / INT_MAX`
      is an integer division, so it is 0 for every draw but `INT_MAX`, and
      the following `/ 10000` and `/ 100000` are integer divisions too. */
  function MoonParamsAsWritten(d: MoonDraw): MoonParams
  {
    MoonParams(
      ((d.orbit / IntMax) / 10000) as real + 0.00025,
      ((d.rotation / IntMax) / 100000) as real + 0.000005,
      (d.scale / IntMax) as real / 4.0 + 0.25)
  }

  /** As written, every moon gets the same speeds whatever `rand()` returns,
      and the scale is 0.25 for all draws but one. */
  lemma MoonParamsAsWrittenIgnoreRand(d: MoonDraw)
    requires IsRandDraw(d)
    ensures MoonParamsAsWritten(d).orbitSpeed == 0.00025
    ensures MoonParamsAsWritten(d).rotationSpeed == 0.000005
    ensures MoonParamsAsWritten(d).scale == 0.25 <==> d.scale < IntMax
  {
  }

  /** The fraction of `RAND_MAX` a draw reached. */
  function Fraction(x: int): (f: real)
    requires 0 <= x <= IntMax
    ensures 0.0 <= f <= 1.0
  {
    x as real / IntMax as real
  }

  /** The moon parameters with the divisions done in floating point, which
      spreads them over the intended ranges. */
  function MoonParamsOf(d: MoonDraw): (p: MoonParams)
    requires IsRandDraw(d)
    ensures 0.00025 <= p.orbitSpeed <= 0.00035
    ensures 0.000005 <= p.rotationSpeed <= 0.000015
    ensures 0.25 <= p.scale <= 0.5
  {
    MoonParams(
      Fraction(d.orbit) / 10000.0 + 0.00025,
      Fraction(d.rotation) / 100000.0 + 0.000005,
      Fraction(d.scale) / 4.0 + 0.25)
  }

  /** With floating-point division the draw matters: a larger draw gives a
      strictly larger speed or scale. */
  lemma MoonParamsFollowRand(d: MoonDraw, e: MoonDraw)
    requires IsRandDraw(d) && IsRandDraw(e)
    ensures d.orbit < e.orbit ==> MoonParamsOf(d).orbitSpeed < MoonParamsOf(e).orbitSpeed
    ensures d.rotation < e.rotation ==> MoonParamsOf(d).rotationSpeed < MoonParamsOf(e).rotationSpeed
    ensures d.scale < e.scale ==> MoonParamsOf(d).scale < MoonParamsOf(e).scale
  {
    FractionStrictlyIncreasing(d.orbit, e.orbit);
    FractionStrictlyIncreasing(d.rotation, e.rotation);
    FractionStrictlyIncreasing(d.scale, e.scale);
  }

  lemma FractionStrictlyIncreasing(x: int, y: int)
    requires 0 <= x <= IntMax && 0 <= y <= IntMax
    ensures x < y ==> Fraction(x) < Fraction(y)
  {
    if x < y {
      assert x as real < y as real;
    }
  }

  // ---------------------------------------------------------------------------
  // Adding planets

  /** `const int baseDistance = 3 + scale.y`: the float is truncated toward
      zero on conversion to `int`. */
  function BaseDistance(scaleY: real): int
  {
    TruncToInt(3.0 + scaleY)
  }

  /** Converting the float to `int` is defined only when the truncated value
      fits in an `int`. */
  predicate BaseDistanceDefined(scaleY: real)
  {
    -2147483649.0 < 3.0 + scaleY < 2147483648.0
  }

  /** `baseDistance + offsetPerMoon * i`: `i` is unsigned, so the sum is
      computed in `unsigned int`, then handed to the body as a float. */
  function MoonRadius(baseDistance: int, i: nat): real
  {
    Wrap32(baseDistance + 1 * i) as real
  }

  /** Moon `i` of a planet, as `AddPlanet` constructs it. */
  function NewMoon(moonObjFile: string, baseDistance: int, i: nat, d: MoonDraw): (m: Body)
    requires IsRandDraw(d)
    ensures m.orbitSpeed == 0.00025 && m.rotationSpeed == 0.000005 && m.objFile == moonObjFile
  {
    MoonParamsAsWrittenIgnoreRand(d);
    var p := MoonParamsAsWritten(d);
    NewBody(moonObjFile, MoonRadius(baseDistance, i), MoonRadius(baseDistance, i),
            p.orbitSpeed, p.rotationSpeed, Vec3(p.scale, p.scale, p.scale))
  }

  /** `AddPlanet`: appends the planet, its name and its list of
      `numMoons` moons, moon `i` orbiting at `baseDistance + i`. The `rand()`
      results the moons are drawn from are passed in as `draws`; as the
      source computes them, they do not affect the moon speeds. */
  function AddPlanet(g: Registry, planet: PlanetInfo, moonObjFile: string, draws: seq<MoonDraw>): (g': Registry)
    requires |draws| == planet.numMoons
    requires forall k :: 0 <= k < |draws| ==> IsRandDraw(draws[k])
    requires BaseDistanceDefined(planet.modelScale.y)
    ensures |g'.planets| == |g.planets| + 1 && |g'.names| == |g.names| + 1 && |g'.moons| == |g.moons| + 1
    ensures g'.planets[..|g.planets|] == g.planets && g'.names[..|g.names|] == g.names && g'.moons[..|g.moons|] == g.moons
    ensures g'.names[|g.names|] == planet.name
    ensures g'.planets[|g.planets|].scale == planet.modelScale
    ensures |g'.moons[|g.moons|]| == planet.numMoons
    ensures forall i :: 0 <= i < planet.numMoons ==>
              && g'.moons[|g.moons|][i].radiusX == MoonRadius(BaseDistance(planet.modelScale.y), i)
              && g'.moons[|g.moons|][i].radiusY == MoonRadius(BaseDistance(planet.modelScale.y), i)
    ensures forall i :: 0 <= i < planet.numMoons ==>
              && g'.moons[|g.moons|][i].orbitSpeed == 0.00025
              && g'.moons[|g.moons|][i].rotationSpeed == 0.000005
              && g'.moons[|g.moons|][i].objFile == moonObjFile
    ensures g'.following == g.following
    ensures Valid(g) ==> Valid(g')
  {
    var body := NewBody(planet.objFile, planet.radiusX, planet.radiusY, planet.orbitSpeed, planet.rotationSpeed, planet.modelScale);
    var base := BaseDistance(body.scale.y);
    var moons := seq(planet.numMoons, i requires 0 <= i < planet.numMoons => NewMoon(moonObjFile, base, i, draws[i]));
    Registry(g.planets + [body], g.names + [planet.name], g.moons + [moons], g.following)
  }

  /** While the sum does not wrap, the moon radii form the progression
      `baseDistance, baseDistance + 1, ...`. */
  lemma MoonRadiiProgression(g: Registry, planet: PlanetInfo, moonObjFile: string, draws: seq<MoonDraw>, i: nat)
    requires |draws| == planet.numMoons
    requires forall k :: 0 <= k < |draws| ==> IsRandDraw(draws[k])
    requires BaseDistanceDefined(planet.modelScale.y)
    requires 0 <= BaseDistance(planet.modelScale.y)
    requires BaseDistance(planet.modelScale.y) + planet.numMoons <= TwoTo32
    requires i < planet.numMoons
    ensures var moons := AddPlanet(g, planet, moonObjFile, draws).moons[|g.moons|];
            && moons[i].radiusX == (BaseDistance(planet.modelScale.y) + i) as real
            && (i + 1 < planet.numMoons ==> moons[i + 1].radiusX == moons[i].radiusX + 1.0)
  {
  }

  /** A non-negative scale puts the first moon at least three units out. */
  lemma BaseDistanceAtLeastThree(scaleY: real)
    requires 0.0 <= scaleY
    ensures 3 <= BaseDistance(scaleY)
  {
  }

  // ---------------------------------------------------------------------------
  // Following a planet

  /** The last index at which `name` occurs in `names`, or -1. */
  function LastIndexOf(names: seq<string>, name: string): (r: int)
    ensures -1 <= r < |names|
    ensures r == -1 <==> name !in names
    ensures r != -1 ==> names[r] == name && forall j :: r < j < |names| ==> names[j] != name
  {
    if |names| == 0 then -1
    else if names[|names| - 1] == name then |names| - 1
    else LastIndexOf(names[..|names| - 1], name)
  }

  /** `FollowPlanet`: forgets the previous choice, then scans every name,
      so the last planet with that name wins, and -1 means none. */
  method FollowPlanet(g: Registry, planetName: string) returns (g': Registry)
    ensures g'.following == LastIndexOf(g.names, planetName)
    ensures g'.following == -1 <==> planetName !in g.names
    ensures g'.following != -1 ==> g.names[g'.following] == planetName
    ensures forall j :: g'.following < j < |g.names| ==> g.names[j] != planetName
    ensures g'.(following := g.following) == g
    ensures Valid(g) ==> Valid(g')
  {
    var following := -1;
    var i := 0;
    while i < |g.names|
      invariant 0 <= i <= |g.names|
      invariant following == LastIndexOf(g.names[..i], planetName)
    {
      assert g.names[..i + 1][..i] == g.names[..i];
      if g.names[i] == planetName {
        following := i;
      }
      i := i + 1;
    }
    assert g.names[..i] == g.names;
    g' := g.(following := following);
  }

  // ---------------------------------------------------------------------------
  // The per-frame update

  /** `Update`: every planet moves one frame (`advance`, the unseen
      `Object::Update`), then each of its moons is re-centred on the planet's
      new location and moves one frame. The source indexes the moon lists by
      planet index, so there must be one per planet. When `advance` keeps
      the centre a body orbits, every moon ends centred on its planet. */
  function Update(g: Registry, advance: Body -> Body): (g': Registry)
    requires |g.planets| <= |g.moons|
    ensures |g'.planets| == |g.planets| && |g'.moons| == |g.moons|
    ensures forall i :: 0 <= i < |g.planets| ==> g'.planets[i] == advance(g.planets[i])
    ensures forall i :: 0 <= i < |g.moons| ==> |g'.moons[i]| == |g.moons[i]|
    ensures (forall b :: advance(b).orbitCenter == b.orbitCenter) ==>
              forall i, m :: 0 <= i < |g.planets| && 0 <= m < |g'.moons[i]| ==>
                g'.moons[i][m].orbitCenter == g'.planets[i].location
    ensures forall i, m :: 0 <= i < |g.planets| && 0 <= m < |g'.moons[i]| ==>
              g'.moons[i][m] == advance(g.moons[i][m].(orbitCenter := g'.planets[i].location))
    ensures g'.names == g.names && g'.following == g.following
    ensures Valid(g) ==> Valid(g')
  {
    var planets := seq(|g.planets|, i requires 0 <= i < |g.planets| => advance(g.planets[i]));
    var moons := seq(|g.moons|, i requires 0 <= i < |g.moons| =>
      if i < |planets| then
        seq(|g.moons[i]|, m requires 0 <= m < |g.moons[i]| => advance(g.moons[i][m].(orbitCenter := planets[i].location)))
      else g.moons[i]);
    assert forall i, m :: 0 <= i < |planets| && 0 <= m < |moons[i]| ==>
      moons[i][m] == advance(g.moons[i][m].(orbitCenter := planets[i].location));
    Registry(planets, g.names, moons, g.following)
  }
}
